=== FILE: README.md ===
# Career recommendation: the skill-matching engine

The system is a set of six Streamlit scripts that recommend careers from a
small catalogue. Every catalogue row has a career name and a comma-separated
`Required_Skills` string. In all scripts but `original.py` a row also has a
description, an image and a learning link. The two scripts that read a CSV
file (`career_guide_ai_modern.py`, `real.py`) also have a salary. The
scripts share these steps, each used by the scripts named:

- **Normalisation** (all six). A skills string is split on `,`. Each piece
  is stripped and lower-cased, and the results are collected into a set of
  tokens.
- **Gap** (all six). The skills still to learn are the required tokens the
  user lacks.
- **Ranking** (all six). The frame is sorted by `Match_Score`,
  descending.
- **Lexical coverage** (`career_guide_ai_modern.py`, `real.py`). The score
  is `100 * |user & req| / |req|`.
- **Hybrid score** (`real.py`). The coverage and the similarity are blended
  as `0.7 * rule + 0.3 * ml`.
- **Fit badge** (all but `original.py`). The score maps to "Excellent Fit",
  "Good Fit" or "Needs Improvement", with the thresholds 80/60, or 85/70 in
  `main.py`.
- **Result cards** (all but `original.py`). The first three rows become
  cards. `original.py` instead shows a table of the first three rows and one
  "Missing Skills" line per row.

The scripts differ in the details:

- Where the user's skills come from: a selection widget over a sorted skill
  vocabulary, or a free-text box normalised like the requirements.
- Whether an empty selection is guarded against.
- Whether the user's labels are lower-cased before the gap is computed.
- Which score ranks the catalogue.
- Whether the frame is sorted in place or as a copy.

The model is layered like the engine:

- `text.dfy` (`Text`) models Python's `str.split`, `strip`, `lower` and
  `replace`.
  - `strip` uses the full `str.isspace` set, by code point.
  - `lower` maps only ASCII letters.
- `order.dfy` (`StringOrder`) models the order of Python strings and the
  sorted, duplicate-free vocabulary.
- `skills.dfy` (`Skills`) holds the normalisation, the gap, the coverage
  score, the badges, the hybrid blend and the two gap variants the scripts
  use.
  - Scores are exact reals.
- `frame.dfy` (`Frame`) models the DataFrame as an `array<Row>`.
  - A score column holds `None` until a pass writes it.
  - `df[col] = values` is the in-place method `AssignColumn`.
  - It also holds `head`, the load-time salary rewrite and the vocabulary.
- `ranking.dfy` (`Ranking`) is `sort_values` as an in-place sort by
  `Match_Score`, plus the sorted-copy variant.
- `cards.dfy` (`Cards`) builds the top-3 cards.
- One module per script holds its own analysis pass and its own facts:
  - `CareerGuideModern` for `career_guide_ai_modern.py`;
  - `RealHybrid` for `real.py`;
  - `PrperCode` for `prper_code_inside_data.py`;
  - `AppScript` for `app.py`;
  - `MainApp` for `main.py`;
  - `OriginalScript` for `original.py`.

Some behaviour of the code is worth stating outright, and the model follows
it:

- **Ties.** The scripts call `sort_values` with its default algorithm, which
  is not stable. The ranking here therefore promises nothing about the order
  of rows with equal scores.
- **Weights.** `real.py` hard-codes the weights 0.7 and 0.3 (real.py:143),
  and so does the model.
- **Empty tokens.** An empty or blank piece of a skills string is kept as
  the token `""`, not dropped (`Skills.BlankPieceKept`,
  `Skills.NormSetBlank`).
- **Empty input.** `app.py` and `main.py` have no guard against empty input:
  the analysis runs on whatever the text box holds (app.py:154-156,
  main.py:142-145). The three selection scripts warn on an empty selection
  and stop.

## Model

| member | source | states |
|---|---|---|
| Text.IsSpace | career_guide_ai_modern.py:77 | `str.isspace()`, by code point: the ASCII controls TAB to CR, U+001C to U+001F, SPACE, NEL, NBSP and the Unicode space separators, line and paragraph separators |
| Text.Split | career_guide_ai_modern.py:77 | `split(",")` yields exactly one piece more than there are commas, and no piece contains a comma (so `""` gives one empty piece) |
| Text.JoinSplit | career_guide_ai_modern.py:77 | re-joining the pieces with the separator gives back the original text: splitting loses nothing |
| Text.SplitJoin | career_guide_ai_modern.py:77 | splitting the join of comma-free pieces gives back exactly those pieces |
| Text.SplitNoSep | career_guide_ai_modern.py:77 | text without a comma splits into itself alone |
| Text.SplitAfterSep | career_guide_ai_modern.py:77 | a comma-free prefix followed by a comma becomes the first piece |
| Text.Strip | career_guide_ai_modern.py:77 | `strip()` leaves no leading or trailing whitespace and never lengthens the text |
| Text.StripLeftRemovesSpace | career_guide_ai_modern.py:77 | stripping on the left removes a whitespace-only prefix and keeps the rest |
| Text.StripRightRemovesSpace | career_guide_ai_modern.py:77 | stripping on the right removes a whitespace-only suffix and keeps the rest |
| Text.StripLeftSkips | career_guide_ai_modern.py:77 | a whitespace prefix before a non-space character is exactly what the left strip removes |
| Text.StripRightSkips | career_guide_ai_modern.py:77 | a whitespace suffix after a non-space character is exactly what the right strip removes |
| Text.StripPadded | career_guide_ai_modern.py:77 | a stripped token padded with whitespace on both sides strips back to the token |
| Text.StripIdempotent | career_guide_ai_modern.py:77 | stripping twice is stripping once |
| Text.Lower | career_guide_ai_modern.py:76 | `lower()` keeps the length, leaves no upper-case letter, maps each upper-case letter to its lower-case partner and keeps every other character |
| Text.LowerIdempotent | career_guide_ai_modern.py:76 | lower-casing twice is lower-casing once |
| Text.LowerOfLowered | career_guide_ai_modern.py:76 | text without upper-case letters is unchanged by lower-casing |
| Text.StripLeftLower | career_guide_ai_modern.py:77 | the left strip and lower-casing commute |
| Text.StripRightLower | career_guide_ai_modern.py:77 | the right strip and lower-casing commute |
| Text.StripLower | career_guide_ai_modern.py:77 | `s.strip().lower()` equals `s.lower().strip()` |
| Text.LowerConcat | career_guide_ai_modern.py:77 | lower-casing distributes over concatenation |
| Text.SplitLower | career_guide_ai_modern.py:77 | for a separator that is not a letter, splitting the lower-cased text gives the lower-cased pieces |
| Text.ReplaceChar | career_guide_ai_modern.py:64-68 | `str.replace` of one character keeps the length, leaves none of the replaced character, and changes exactly the positions that held it |
| StringOrder.Less | career_guide_ai_modern.py:119 | the `str` order `sorted()` uses: a proper prefix is smaller, otherwise the first differing code point decides |
| StringOrder.LessLexicographic | career_guide_ai_modern.py:119 | `Less(a, b)` holds exactly when `a` is a proper prefix of `b` or `a` has the smaller code point at the first position where they differ |
| StringOrder.LessIrreflexive | career_guide_ai_modern.py:119 | no string sorts before itself |
| StringOrder.LessTransitive | career_guide_ai_modern.py:119 | the string order is transitive |
| StringOrder.LessTotal | career_guide_ai_modern.py:119 | any two different strings are ordered one way or the other |
| StringOrder.Insert | career_guide_ai_modern.py:119 | inserting into a strictly increasing list keeps it strictly increasing and adds exactly the new element |
| StringOrder.InsertAll | career_guide_ai_modern.py:119 | inserting a list keeps the result strictly increasing and its elements are the old ones plus the inserted ones |
| StringOrder.StripEach | career_guide_ai_modern.py:119 | `skill.strip()` of every comma piece: one result per piece, the i-th being `Strip` of the i-th piece |
| StringOrder.Vocabulary | career_guide_ai_modern.py:119 | `sorted({skill.strip() ...})` is strictly increasing (sorted, no duplicates) and holds exactly the stripped pieces of all requirement strings |
| StringOrder.OfferedLast | career_guide_ai_modern.py:119 | a label is offered by a list of requirement strings exactly when it is offered by all but the last or by the last |
| StringOrder.VocabularyStripped | career_guide_ai_modern.py:119 | every vocabulary label is stripped |
| Skills.Norm | career_guide_ai_modern.py:77 | a normalised token is stripped and has no upper-case letter |
| Skills.NormSet | career_guide_ai_modern.py:77 | the token set is never empty, each token is stripped and lower-case, and it holds exactly the normalised forms of the comma pieces: every piece contributes one, and every token comes from some piece |
| Skills.NormSetBlank | main.py:140 | blank input (empty or whitespace only) normalises to `{""}`, not to the empty set |
| Skills.BlankPieceKept | career_guide_ai_modern.py:77 | a whitespace-only piece between commas survives as the token `""` |
| Skills.NormLower | career_guide_ai_modern.py:77 | normalising a lower-cased piece gives the same token |
| Skills.NormSetIgnoresCase | app.py:152 | the token set of the lower-cased text equals the token set of the text |
| Skills.LowerAll | career_guide_ai_modern.py:76 | `set(s.lower() for s in labels)`: every element is lower-case, and it holds exactly the lower-cased labels: every label's lower-cased form is in it, and every element is some label lower-cased |
| Skills.LowerAllIdempotent | career_guide_ai_modern.py:76 | lower-casing an already lower-cased label set changes nothing |
| Skills.Gap | career_guide_ai_modern.py:92 | `req - user` lies inside `req` and outside `user`, restores `req` when joined with `req & user`, is empty exactly when `req` is a subset of `user`, and its size is `len(req) - len(req & user)` |
| Skills.Percent | career_guide_ai_modern.py:78 | a part of a positive whole, as a percentage, lies in [0, 100] and is 100 exactly for the whole |
| Skills.Coverage | career_guide_ai_modern.py:77-78 | lies in [0, 100]; is 100 exactly when `req` is non-empty and covered; is 0 exactly when `req` is empty (the guard) or disjoint from `user`; otherwise it equals the percentage of `req` left after the gap |
| Skills.BandOf | career_guide_ai_modern.py:81-87 | the three bands hold exactly for `>= hi`, for `lo <= s < hi` and for the rest, tested in that order |
| Skills.BandMonotone | career_guide_ai_modern.py:81-87 | a higher score never gets a worse band |
| Skills.Badge | career_guide_ai_modern.py:81-87 | "Excellent Fit" iff score >= 80, "Good Fit" iff 60 <= score < 80, "Needs Improvement" iff score < 60; the same in real.py:80-86, prper_code_inside_data.py:126-132, app.py:112-118 |
| Skills.BadgeMonotone | career_guide_ai_modern.py:81-87 | the badge is monotone in the score; the same in app.py:112-118 |
| Skills.LabelsDistinct | career_guide_ai_modern.py:81-87 | different badges show different texts |
| Skills.Hybrid | real.py:143 | `0.7 * rule + 0.3 * ml` lies between the two scores, stays in [0, 100] when both do, and is `0.7 * rule` when ml is 0 |
| Skills.HybridMonotone | real.py:143 | the blend never decreases when the rule score or the ML score grows |
| Skills.LabelScore | career_guide_ai_modern.py:75-78 | `match_score` lies in [0, 100]; it is 100 iff every normalised requirement is among the lower-cased labels, and 0 iff none is; the same in real.py:74-77 |
| Skills.LabelScoreIsRatio | career_guide_ai_modern.py:77-78 | the requirement set is never empty, so the `if req else 0` guard never fires and the score is always the ratio |
| Skills.LabelScoreIgnoresCase | career_guide_ai_modern.py:76 | lower-casing the user labels beforehand does not change the score |
| Skills.LabelGap | career_guide_ai_modern.py:89-92 | `missing` is a subset of the normalised requirements, disjoint from the lower-cased labels, and empty iff those cover the requirements; the same in real.py:89-92 |
| Skills.LabelGapAgreesWithScore | career_guide_ai_modern.py:89-92 | `match_score == 100 * (len(req) - len(missing)) / len(req)`: the score and the gap describe the same split |
| Skills.LabelGapIgnoresCase | career_guide_ai_modern.py:90 | the gap does not depend on the case of the user labels |
| Skills.TokenGap | prper_code_inside_data.py:134-135 | `missing` is a subset of the normalised requirements and disjoint from `user_set`; joined with the covered part it restores the requirements; it is empty iff they are covered; the same in main.py:76-78, app.py:120-121, original.py:41-42 |
| Skills.CapitalisedLabelIgnored | prper_code_inside_data.py:135 | since the user labels are not lower-cased, adding a label with an upper-case letter never removes a token from the gap |
| Skills.CapitalisedLabelsMissAll | prper_code_inside_data.py:135 | if every label has an upper-case letter, the gap is the whole requirement set |
| Skills.TokenGapIgnoresCase | app.py:152 | with `user_skills` normalised like the requirements, the gap is the same whatever the case of the typed text or of the requirements |
| Frame.SetColumn | career_guide_ai_modern.py:128 | writing one score column of a row sets that column and keeps the career and the other columns |
| Frame.WithColumn | career_guide_ai_modern.py:128-130 | after `df[col] = values`, row k has `values[k]` in that column and is otherwise unchanged |
| Frame.AssignColumn | career_guide_ai_modern.py:128-130 | the in-place column write leaves the frame equal to `WithColumn` of its old rows |
| Frame.Percentages | prper_code_inside_data.py:172 | `similarity * 100` multiplies each value by 100, so similarities in [0, 1] become scores in [0, 100] |
| Frame.PermutationKeepsScores | career_guide_ai_modern.py:132 | reordering the rows keeps every `Match_Score` within the bounds it had |
| Frame.Head | career_guide_ai_modern.py:138 | `df.head(n)` is the first `min(n, len)` rows |
| Frame.CardsFor | career_guide_ai_modern.py:138 | one card per row of `df.head(n)`, in row order |
| Frame.SalaryText | career_guide_ai_modern.py:64-71 | the new Salary is "₹" followed by the old text with every en dash replaced by "-": one character longer, no en dash left, every other character kept (for any text; see Findings for the text the scripts load) |
| Frame.Latin1Decode | career_guide_ai_modern.py:63 | `encoding="latin1"`: one character per byte, with the byte's value as its code point, so no character is above U+00FF; the same at real.py:63 |
| Frame.Latin1SalaryText | career_guide_ai_modern.py:63-71 | on any cell decoded as Latin-1, the salary rewrite only prepends "₹": the en-dash replacement never changes anything |
| Frame.EnDashBytesKept | career_guide_ai_modern.py:63-68 | the UTF-8 bytes of an en dash read as Latin-1 become "â", U+0080, U+0093, which the rewrite keeps |
| Frame.RewriteSalaries | career_guide_ai_modern.py:64-71 | the two whole-column passes rewrite every row's salary to `SalaryText` of its old salary and change nothing else; the same in real.py:65-70 |
| Frame.SkillChoices | career_guide_ai_modern.py:119 | the widget's options are sorted, duplicate-free, stripped, and are exactly the stripped comma pieces of the catalogue's requirements; the same in real.py:121, prper_code_inside_data.py:163 |
| Frame.LabelScoreColumn | career_guide_ai_modern.py:128-130 | the applied column has one `match_score` per row, each in [0, 100]; the same in real.py:130-132 |
| Ranking.MaxFrom | career_guide_ai_modern.py:132 | finds a row with the highest score in the unsorted part of the frame |
| Ranking.SortByScore | career_guide_ai_modern.py:132 | the in-place sort leaves the rows non-increasing by `Match_Score` and a permutation of the old rows; the same in real.py:145, prper_code_inside_data.py:173, app.py:156 |
| Ranking.RankBy | career_guide_ai_modern.py:128-132 | writing `Match_Score` and then sorting leaves a sorted permutation of the scored rows, in bounds when the written values are |
| Ranking.SortedCopy | main.py:145 | `recommendations` is a new frame, sorted non-increasing, and a permutation of `df`, which is left as it was |
| Ranking.HeadOfSorted | original.py:34 | the first n rows of a sorted frame are drawn from it, are sorted, and score at least as much as every row left out |
| CareerGuideModern.Analyze | career_guide_ai_modern.py:122-132 | an empty selection warns and leaves the frame unchanged; otherwise the frame becomes a sorted permutation of the rows with `Match_Score` set to each row's coverage score, all in [0, 100] |
| Cards.LabelCard | career_guide_ai_modern.py:138-170 | a card shows the career, its score, the 80/60 badge of that score, and "You are ready" exactly when the lower-cased labels cover the requirements |
| Cards.LabelCards | career_guide_ai_modern.py:138-170 | there are `min(3, len)` cards, card i being exactly `LabelCard` of row i (career, score, 80/60 badge and gap); "ready" exactly when covered; on a sorted frame, scores and badges never increase from card to card; the same in real.py:151-182 |
| Cards.TokenCard | prper_code_inside_data.py:178-196 | a card with the gap against the labels as given: "You are ready" exactly when they cover the requirements |
| Cards.TokenCards | prper_code_inside_data.py:178-196 | `min(3, len)` cards, card i being exactly `TokenCard` of row i; "ready" exactly when covered; in score and badge order on a sorted frame; the same in app.py:164-179 |
| Cards.CardsInOrder | career_guide_ai_modern.py:138 | cards taken in order from a sorted frame never show a higher score or a better badge than an earlier card |
| RealHybrid.HybridColumn | real.py:143 | the `Match_Score` column is the blend of each row's `Rule_Score` and `ML_Score` |
| RealHybrid.WithScores | real.py:130-143 | after the three column writes, each row keeps its career and holds its rule score, its ML score and their blend; the blend is in [0, 100] when both columns are |
| RealHybrid.Analyze | real.py:124-145 | an empty selection stops the pass before any column is written; otherwise the frame is a sorted permutation of the rows holding the rule score, `similarity * 100` and their blend, in [0, 100] for similarities in [0, 1] |
| RealHybrid.LexicalAloneAtMostGood | real.py:143 | with an ML score of 0 the blend is at most 70: a full lexical match alone is "Good Fit", never "Excellent Fit" |
| RealHybrid.SimilarityAloneNeedsImprovement | real.py:143 | with a rule score of 0 the blend is at most 30, always "Needs Improvement" |
| RealHybrid.ExcellentNeedsBoth | real.py:143 | "Excellent Fit" needs a rule score of at least 500/7 and an ML score of at least 100/3 |
| PrperCode.Analyze | prper_code_inside_data.py:166-173 | an empty selection warns and writes no `Match_Score`; otherwise the frame is a sorted permutation of the rows with `Match_Score = similarity * 100` |
| PrperCode.DefaultSelectionMissesAll | prper_code_inside_data.py:164 | with the default selection "Python", "SQL", "HTML", every requirement of every career is reported missing, since the labels are compared without lower-casing |
| PrperCode.ReadyUnreachable | prper_code_inside_data.py:134-135 | a career whose requirement is one capitalised label offers that label, yet selecting it leaves the whole requirement missing, so "You are ready" never shows |
| PrperCode.OwnLabelsReady | prper_code_inside_data.py:163-164 | with the labels lower-cased before the difference, selecting every label a career offers leaves nothing missing |
| AppScript.Analyze | app.py:154-156 | with no input guard, `Match_Score = similarity * 100` is written and the frame becomes a sorted permutation of the scored rows |
| AppScript.BlankInputMissesAll | app.py:152 | blank text gives `user_skills == {""}`, and then every requirement of a string without a blank piece is missing |
| MainApp.AssignBadge | main.py:80-83 | "Excellent Fit" iff score >= 85, "Good Fit" iff 70 <= score < 85, "Needs Improvement" iff score < 70 |
| MainApp.AssignBadgeMonotone | main.py:80-83 | `assign_badge` is monotone in the score |
| MainApp.AssignBadgeStricter | main.py:80-83 | the 85/70 badge is never better than the 80/60 badge for the same score |
| MainApp.Analyze | main.py:142-145 | `Match_Score = similarity * 100` is written into `df` in place, and `recommendations` is a new sorted permutation of the scored `df` |
| MainApp.MainCard | main.py:153-165 | a card shows the career, its score, the 85/70 badge and the gap; "Perfect Skill Alignment" exactly when `user_skills_processed` covers the requirements |
| MainApp.ShowTopThree | main.py:148-165 | the loop shows three cards, one per leading row, exactly when there are at least three rows; otherwise it stops with an `IndexError` after showing every row; on a sorted frame, scores and badges never increase from card to card |
| MainApp.ShowTopCards | main.py:153-165 | the loop bounded by `min(3, len)`: it shows `MainCard` of each of the first `min(3, len)` rows, never fails, and on a sorted frame its scores and badges never increase |
| OriginalScript.Recommend | original.py:27-34 | `Match_Score` is the raw similarity, written in place; the recommendations are `min(3, len)` rows drawn from the frame, sorted, scoring at least as much as every row left out, in [0, 1] when the similarities are |
| OriginalScript.LineFor | original.py:40-43 | a report line names the career; its missing skills lie in the requirements and outside the user's tokens, and "None" is written exactly when they cover the requirements |
| OriginalScript.MissingReport | original.py:38-43 | the loop writes one line per recommendation, in order, each the requirements minus the normalised user skills |

## Left out

- **TF-IDF similarity.** The scores come from sklearn's `TfidfVectorizer` and `cosine_similarity` (real.py:135-138, prper_code_inside_data.py:120-124, main.py:70-74, app.py:106-110, original.py:28-31).
  - They are floating-point results from a library whose code is not part of this model.
  - They enter the model as the parameter `similarity`.
  - That they lie in [0, 1] is only a hypothesis of the range facts.
- **Loading and setup.** CSV loading (career_guide_ai_modern.py:63, real.py:63) is file I/O: the catalogue is the array passed in, with the salary already text. Only the Latin-1 decoding is modelled (`Frame.Latin1Decode`). Not modelled:
  - `astype(str)` (career_guide_ai_modern.py:66, real.py:67), which turns a missing salary into the text "nan", so that the rewrite shows "₹nan";
  - the stripping of column names (career_guide_ai_modern.py:72, real.py:71), which only affects column headers.
- **Presentation.** Not modelled:
  - Streamlit widgets, the CSS and HTML card markup, and the "Top Recommendation" banner (main.py:148);
  - the Plotly bar, radar, pie and line charts, and the vectors that feed the radar;
  - the FPDF report (main.py:104-123);
  - the comparison selectboxes (main.py:184-196).

  These only display values the model already computes.
- **Sidebar search.** main.py:132-136 calls `str.contains`, which treats the query as a regular expression, and there is no regular-expression engine here.
- **Display text of the gap.** Not modelled:
  - the "first three missing skills" (prper_code_inside_data.py:183, app.py:169, main.py:163);
  - the `join` and `title()` of the missing skills;
  - the "None" text list (original.py:43).

  All of these depend on Python's set iteration order. The cards and report lines keep the gap as a set.
- **Numbers.** Scores are exact reals. Float rounding and the `:.1f` / `:.2f` formatting are not modelled.
- **Character handling.** `lower()` maps only ASCII letters; full Unicode case mapping is not modelled. `strip()` does use Python's complete whitespace set.
- **Ties and row labels.** The order of rows with equal scores is not modelled. `reset_index(drop=True)` is implicit, because a row's index is its array position.
- **Widget constraints.** The selection widget's constraint that chosen labels come from the vocabulary is not relied on anywhere; no property needs it.
- OriginalScript.MissingReport: takes the normalised user set from original.py:38 (that is, `Skills.NormSet` of the typed text) as its argument, rather than the raw text.
- Streamlit re-runs the whole script on every interaction, so `df` is rebuilt each time. The model covers one run of the button block.

## Findings

| source | as written | input that shows it | evidently intended | confidence | as-written member | corrected member |
|---|---|---|---|---|---|---|
| prper_code_inside_data.py:134-135 | the selected labels are subtracted from the lower-cased requirement tokens as they are offered, capitalised | a career requiring "Python" with "Python" selected: "python" is still missing, so "You are ready" never shows for any selection from the vocabulary | lower-case the labels first, as career_guide_ai_modern.py:90 and real.py:90 do | high, not executed | PrperCode.ReadyUnreachable | PrperCode.OwnLabelsReady |
| main.py:153-154 | `for i in range(3)` reads `recommendations.iloc[i]` without checking the length | a catalogue of fewer than three careers, such as two: the third iteration raises `IndexError` after two cards; latent, since main.py's own hard-coded catalogue (main.py:12-65) holds 11 careers | show `min(3, len)` cards | medium, not executed | MainApp.ShowTopThree | MainApp.ShowTopCards |
| career_guide_ai_modern.py:63-68 | the CSV is read as Latin-1, so no cell holds U+2013 and the en-dash replacement never fires | a salary "5–10" stored as UTF-8: its dash bytes are read as "â", U+0080, U+0093 and shown unchanged after "₹" | read the file in its actual encoding, so that an en dash arrives as U+2013 and reaches the replacement; the same in real.py:63-70 | medium, not executed | Frame.EnDashBytesKept | Frame.SalaryText |

=== FILE: app.dfy ===
/** app.py: a built-in catalogue, a free-text skills box normalised like the
    requirements, and a ranking by text similarity alone. There is no guard
    on the input: blank text still scores and ranks. */
module AppScript {
  import opened Text
  import opened Skills
  import opened Frame
  import Ranking

  /** The "Analyze" button: `Match_Score` is the similarity as a
      percentage and the frame is sorted by it, whatever the input. */
  method Analyze(df: array<Row>, similarity: seq<real>)
    requires |similarity| == df.Length
    modifies df
    ensures multiset(df[..]) == multiset(WithColumn(old(df[..]), Match, Percentages(similarity)))
    ensures SortedByScore(df[..])
    ensures InRange(similarity, 0.0, 1.0) ==> ScoresIn(df[..], 0.0, 100.0)
  {
    Ranking.RankBy(df, Percentages(similarity), 0.0, 100.0);
  }

  /** Blank input gives the user set {""}, which covers only a blank
      requirement piece: for a requirement string without one, every
      requirement is missing. */
  lemma BlankInputMissesAll(userInput: string, requiredSkills: string)
    requires AllSpace(userInput)
    requires "" !in NormSet(requiredSkills)
    ensures NormSet(userInput) == {""}
    ensures TokenGap(NormSet(userInput), requiredSkills) == NormSet(requiredSkills)
  {
    NormSetBlank(userInput);
  }
}

=== FILE: cards.dfy ===
/** The "Top 3 Matches" cards: one card for each of the first three rows of
    the ranked frame, showing the career, its badge, its score and the
    skills still to learn ("You are ready" when there are none). */
module Cards {
  import opened Skills
  import opened Frame

  /** The card of a script that lower-cases the labels before the gap. */
  function LabelCard(row: Row, userLabels: set<string>): (c: Card)
    ensures c.career == row.career.name && c.score == Score(row) && c.band == Badge(Score(row))
    ensures c.missing == {} <==> NormSet(row.career.requiredSkills) <= LowerAll(userLabels)
  {
    Card(row.career.name, Badge(Score(row)), Score(row), LabelGap(userLabels, row.career.requiredSkills))
  }

  /** The card of a script that compares the user set as given. */
  function TokenCard(row: Row, userTokens: set<string>): (c: Card)
    ensures c.career == row.career.name && c.score == Score(row) && c.band == Badge(Score(row))
    ensures c.missing == {} <==> NormSet(row.career.requiredSkills) <= userTokens
  {
    Card(row.career.name, Badge(Score(row)), Score(row), TokenGap(userTokens, row.career.requiredSkills))
  }

  /** The cards of `df.head(3)` with lower-cased labels: at most three, one
      per leading row, "ready" exactly where the requirements are covered,
      and in score and badge order once the frame is sorted. */
  function LabelCards(rows: seq<Row>, userLabels: set<string>): (cards: seq<Card>)
    ensures |cards| == if |rows| < 3 then |rows| else 3
    ensures forall i :: 0 <= i < |cards| ==> cards[i] == LabelCard(rows[i], userLabels)
    ensures forall i :: 0 <= i < |cards| ==>
      (cards[i].missing == {} <==> NormSet(rows[i].career.requiredSkills) <= LowerAll(userLabels))
    ensures SortedByScore(rows) ==> forall i, j :: 0 <= i < j < |cards| ==>
      cards[i].score >= cards[j].score && Level(cards[i].band) >= Level(cards[j].band)
  {
    var cards := CardsFor(rows, 3, r => LabelCard(r, userLabels));
    if SortedByScore(rows) then
      CardsInOrder(rows, cards, 80.0, 60.0);
      cards
    else
      cards
  }

  /** The cards of `df.head(3)` with the user set as given. */
  function TokenCards(rows: seq<Row>, userTokens: set<string>): (cards: seq<Card>)
    ensures |cards| == if |rows| < 3 then |rows| else 3
    ensures forall i :: 0 <= i < |cards| ==> cards[i] == TokenCard(rows[i], userTokens)
    ensures forall i :: 0 <= i < |cards| ==>
      (cards[i].missing == {} <==> NormSet(rows[i].career.requiredSkills) <= userTokens)
    ensures SortedByScore(rows) ==> forall i, j :: 0 <= i < j < |cards| ==>
      cards[i].score >= cards[j].score && Level(cards[i].band) >= Level(cards[j].band)
  {
    var cards := CardsFor(rows, 3, r => TokenCard(r, userTokens));
    if SortedByScore(rows) then
      CardsInOrder(rows, cards, 80.0, 60.0);
      cards
    else
      cards
  }

  /** Cards taken in order from a sorted frame never show a higher score or
      a better badge than a card before them. */
  lemma CardsInOrder(rows: seq<Row>, cards: seq<Card>, hi: real, lo: real)
    requires SortedByScore(rows)
    requires |cards| <= |rows|
    requires forall i :: 0 <= i < |cards| ==>
      cards[i].score == Score(rows[i]) && cards[i].band == BandOf(Score(rows[i]), hi, lo)
    ensures forall i, j :: 0 <= i < j < |cards| ==>
      cards[i].score >= cards[j].score && Level(cards[i].band) >= Level(cards[j].band)
  {
    forall i, j | 0 <= i < j < |cards|
      ensures cards[i].score >= cards[j].score && Level(cards[i].band) >= Level(cards[j].band)
    {
      BandMonotone(Score(rows[j]), Score(rows[i]), hi, lo);
    }
  }
}

=== FILE: career_guide_ai_modern.dfy ===
/** career_guide_ai_modern.py: the catalogue comes from a CSV table whose
    Salary column is rewritten on load; careers are ranked by lexical
    coverage alone, with the user's labels lower-cased, and badged 80/60. */
module CareerGuideModern {
  import opened Frame
  import Ranking

  /** The "Analyze" button: an empty selection only warns and writes
      nothing; otherwise `Match_Score` is the coverage score of each row
      and the frame is sorted by it. */
  method Analyze(df: array<Row>, userSkills: set<string>) returns (outcome: Outcome)
    modifies df
    ensures outcome == EmptySelection <==> userSkills == {}
    ensures outcome == EmptySelection ==> df[..] == old(df[..])
    ensures outcome == Ranked ==>
      && multiset(df[..]) == multiset(WithColumn(old(df[..]), Match, LabelScoreColumn(old(df[..]), userSkills)))
      && SortedByScore(df[..])
      && ScoresIn(df[..], 0.0, 100.0)
  {
    if userSkills == {} {
      return EmptySelection;
    }
    Ranking.RankBy(df, LabelScoreColumn(df[..], userSkills), 0.0, 100.0);
    return Ranked;
  }
}

=== FILE: frame.dfy ===
/** The career table the scripts keep in a pandas DataFrame: one row per
    career, plus the score columns an analysis pass writes into it. */
module Frame {
  import opened Text
  import opened Skills
  import opened StringOrder

  datatype Option<T> = None | Some(value: T)

  /** One catalogue entry; `salary` is "" in the tables that have no
      salary column. */
  datatype Career = Career(
    name: string,
    requiredSkills: string,
    description: string,
    image: string,
    learnLink: string,
    salary: string)

  /** A row of the frame. A score column holds `None` until a pass writes it. */
  datatype Row = Row(
    career: Career,
    ruleScore: Option<real>,
    mlScore: Option<real>,
    matchScore: Option<real>)

  /** The score columns: `Rule_Score`, `ML_Score` and `Match_Score`. */
  datatype Column = Rule | Ml | Match

  function Get(row: Row, column: Column): Option<real> {
    match column
    case Rule => row.ruleScore
    case Ml => row.mlScore
    case Match => row.matchScore
  }

  /** The row with one column set; the career and the other columns are kept. */
  function SetColumn(row: Row, column: Column, value: real): (r: Row)
    ensures r.career == row.career
    ensures Get(r, column) == Some(value)
    ensures forall c :: c != column ==> Get(r, c) == Get(row, c)
  {
    match column
    case Rule => row.(ruleScore := Some(value))
    case Ml => row.(mlScore := Some(value))
    case Match => row.(matchScore := Some(value))
  }

  /** The rows after `df[column] = values`. */
  function WithColumn(rows: seq<Row>, column: Column, values: seq<real>): (r: seq<Row>)
    requires |values| == |rows|
    ensures |r| == |rows|
    ensures forall k :: 0 <= k < |r| ==> r[k] == SetColumn(rows[k], column, values[k])
  {
    seq(|rows|, k requires 0 <= k < |rows| => SetColumn(rows[k], column, values[k]))
  }

  /** `df[column] = values`: writes one value into every row, in place. */
  method AssignColumn(df: array<Row>, column: Column, values: seq<real>)
    requires |values| == df.Length
    modifies df
    ensures df[..] == WithColumn(old(df[..]), column, values)
  {
    ghost var rows := df[..];
    for i := 0 to df.Length
      invariant forall k :: 0 <= k < i ==> df[k] == SetColumn(rows[k], column, values[k])
      invariant forall k :: i <= k < df.Length ==> df[k] == rows[k]
    {
      df[i] := SetColumn(df[i], column, values[i]);
    }
  }

  /** `similarity * 100`: each value as a percentage. Similarities in
      [0, 1] become scores in [0, 100]. */
  function Percentages(values: seq<real>): (r: seq<real>)
    ensures |r| == |values|
    ensures forall k :: 0 <= k < |r| ==> r[k] == 100.0 * values[k]
    ensures InRange(values, 0.0, 1.0) ==> InRange(r, 0.0, 100.0)
  {
    seq(|values|, k requires 0 <= k < |values| => 100.0 * values[k])
  }

  predicate InRange(values: seq<real>, lo: real, hi: real) {
    forall k :: 0 <= k < |values| ==> lo <= values[k] <= hi
  }

  /** The `Match_Score` a row is ranked by; only read once the column exists. */
  function Score(row: Row): real {
    match row.matchScore
    case Some(v) => v
    case None => 0.0
  }

  /** The `Match_Score` column exists: every row has a value. */
  predicate HasMatchScore(rows: seq<Row>) {
    forall k :: 0 <= k < |rows| ==> rows[k].matchScore.Some?
  }

  /** Non-increasing by `Match_Score`; nothing is said about ties. */
  predicate SortedByScore(rows: seq<Row>) {
    forall i, j :: 0 <= i < j < |rows| ==> Score(rows[i]) >= Score(rows[j])
  }

  predicate ScoresIn(rows: seq<Row>, lo: real, hi: real) {
    forall k :: 0 <= k < |rows| ==> rows[k].matchScore.Some? && lo <= Score(rows[k]) <= hi
  }

  /** Reordering rows keeps every `Match_Score` within the bounds it had. */
  lemma PermutationKeepsScores(rows: seq<Row>, perm: seq<Row>, lo: real, hi: real)
    requires multiset(perm) == multiset(rows)
    requires ScoresIn(rows, lo, hi)
    ensures ScoresIn(perm, lo, hi)
  {
    forall k | 0 <= k < |perm| ensures perm[k].matchScore.Some? && lo <= Score(perm[k]) <= hi {
      assert perm[k] in multiset(perm);
      assert perm[k] in rows;
    }
  }

  /** `df.head(n)`. */
  function Head(rows: seq<Row>, n: nat): (r: seq<Row>)
    ensures |r| == if |rows| < n then |rows| else n
    ensures r == rows[..|r|]
  {
    if |rows| < n then rows else rows[..n]
  }

  /** How an analysis pass ended: stopped by the empty-selection warning,
      or with the frame scored and sorted. */
  datatype Outcome = EmptySelection | Ranked

  /** What one result card shows: the career, its badge, its score and the
      skills still to learn (an empty set is the "ready" message). */
  datatype Card = Card(career: string, band: Band, score: real, missing: set<string>)

  /** `out` holds `f` of each of the first `|out|` rows, in row order: what
      a loop over the rows has produced so far. */
  ghost predicate Mapped<T>(out: seq<T>, rows: seq<Row>, f: Row -> T) {
    && |out| <= |rows|
    && forall k :: 0 <= k < |out| ==> out[k] == f(rows[k])
  }

  lemma MappedOneMore<T>(out: seq<T>, rows: seq<Row>, f: Row -> T)
    requires Mapped(out, rows, f) && |out| < |rows|
    ensures Mapped(out + [f(rows[|out|])], rows, f)
  {
  }

  /** One card per row of `df.head(n)`, in row order. */
  function CardsFor(rows: seq<Row>, n: nat, card: Row -> Card): (cards: seq<Card>)
    ensures |cards| == |Head(rows, n)|
    ensures forall i :: 0 <= i < |cards| ==> cards[i] == card(rows[i])
  {
    var top := Head(rows, n);
    seq(|top|, i requires 0 <= i < |top| => card(top[i]))
  }

  // ------------------------------------------------------- catalogue text

  const EnDash: char := '\U{2013}'
  const Rupee: char := '\U{20B9}'

  /** The rewritten Salary cell: "₹" followed by the text with every en
      dash turned into "-". */
  function SalaryText(salary: string): (r: string)
    ensures |r| == |salary| + 1
    ensures r[0] == Rupee && EnDash !in r
    ensures forall k :: 0 <= k < |salary| && salary[k] != EnDash ==> r[k + 1] == salary[k]
    ensures forall k :: 0 <= k < |salary| && salary[k] == EnDash ==> r[k + 1] == '-'
  {
    [Rupee] + ReplaceChar(salary, EnDash, '-')
  }

  /** `encoding="latin1"`: every byte becomes the code point of the same
      value, so no decoded text holds a character above U+00FF. */
  function Latin1Decode(bytes: seq<bv8>): (text: string)
    ensures |text| == |bytes|
    ensures forall k :: 0 <= k < |text| ==> text[k] as int == bytes[k] as int <= 0xFF
  {
    seq(|bytes|, k requires 0 <= k < |bytes| => bytes[k] as int as char)
  }

  /** On a Latin-1 decoded cell the en-dash replacement never fires: the
      rewrite only puts the rupee sign in front. */
  lemma Latin1SalaryText(bytes: seq<bv8>)
    ensures SalaryText(Latin1Decode(bytes)) == [Rupee] + Latin1Decode(bytes)
  {
    var salary := Latin1Decode(bytes);
    var r := SalaryText(salary);
    forall k | 0 <= k < |salary| ensures r[k + 1] == salary[k] {
      assert salary[k] != EnDash;
    }
    assert r == [Rupee] + salary;
  }

  /** The UTF-8 bytes of an en dash, read as Latin-1, are three other
      characters, and they survive the rewrite unchanged. */
  lemma EnDashBytesKept()
    ensures SalaryText(Latin1Decode([0xE2, 0x80, 0x93])) == [Rupee, '\U{E2}', '\U{80}', '\U{93}']
  {
    Latin1SalaryText([0xE2, 0x80, 0x93]);
    var text := Latin1Decode([0xE2, 0x80, 0x93]);
    assert text == ['\U{E2}', '\U{80}', '\U{93}'];
  }

  function WithSalary(row: Row, salary: string): Row {
    row.(career := row.career.(salary := salary))
  }

  /** The load-time rewrite of the Salary column: first the en dashes are
      replaced, then the rupee sign is prefixed, each over the whole column.
      Only the salaries change. */
  method RewriteSalaries(df: array<Row>)
    modifies df
    ensures forall k :: 0 <= k < df.Length ==>
      df[k] == WithSalary(old(df[k]), SalaryText(old(df[k]).career.salary))
  {
    ghost var rows := df[..];
    for i := 0 to df.Length
      invariant forall k :: 0 <= k < i ==>
        df[k] == WithSalary(rows[k], ReplaceChar(rows[k].career.salary, EnDash, '-'))
      invariant forall k :: i <= k < df.Length ==> df[k] == rows[k]
    {
      df[i] := WithSalary(df[i], ReplaceChar(df[i].career.salary, EnDash, '-'));
    }
    for i := 0 to df.Length
      invariant forall k :: 0 <= k < i ==> df[k] == WithSalary(rows[k], SalaryText(rows[k].career.salary))
      invariant forall k :: i <= k < df.Length ==>
        df[k] == WithSalary(rows[k], ReplaceChar(rows[k].career.salary, EnDash, '-'))
    {
      df[i] := WithSalary(df[i], [Rupee] + df[i].career.salary);
    }
  }

  /** The `Required_Skills` column. */
  function Requirements(rows: seq<Row>): (reqs: seq<string>)
    ensures |reqs| == |rows|
    ensures forall k :: 0 <= k < |rows| ==> reqs[k] == rows[k].career.requiredSkills
  {
    seq(|rows|, k requires 0 <= k < |rows| => rows[k].career.requiredSkills)
  }

  /** The options of the skill selection widget: the distinct stripped comma
      pieces of all `Required_Skills` cells, sorted. */
  function SkillChoices(rows: seq<Row>): (v: seq<string>)
    ensures StrictlyIncreasing(v)
    ensures forall z :: z in v <==>
      exists k :: 0 <= k < |rows| && z in SkillLabels(rows[k].career.requiredSkills)
    ensures forall z :: z in v ==> IsStripped(z)
  {
    var reqs := Requirements(rows);
    var v := Vocabulary(reqs);
    forall z | z in v ensures IsStripped(z) {
      VocabularyStripped(reqs, z);
    }
    v
  }

  // ---------------------------------------------------------------- scores

  /** `df["Required_Skills"].apply(lambda x: match_score(user_skills, x))`. */
  function LabelScoreColumn(rows: seq<Row>, userLabels: set<string>): (scores: seq<real>)
    ensures |scores| == |rows|
    ensures InRange(scores, 0.0, 100.0)
    ensures forall k :: 0 <= k < |rows| ==> scores[k] == LabelScore(userLabels, rows[k].career.requiredSkills)
  {
    seq(|rows|, k requires 0 <= k < |rows| => LabelScore(userLabels, rows[k].career.requiredSkills))
  }
}

=== FILE: main.dfy ===
/** main.py: a built-in catalogue, a free-text skills box, a ranking by
    text similarity kept as a separate sorted frame, stricter badges
    (85/70), and a loop that shows the first three recommendations. */
module MainApp {
  import opened Skills
  import opened Frame
  import Ranking
  import Cards

  /** `assign_badge`: 85 and above, then 70 and above, then the rest. */
  function AssignBadge(score: real): (b: Band)
    ensures b == ExcellentFit <==> score >= 85.0
    ensures b == GoodFit <==> 70.0 <= score < 85.0
    ensures b == NeedsImprovement <==> score < 70.0
  {
    BandOf(score, 85.0, 70.0)
  }

  lemma AssignBadgeMonotone(s1: real, s2: real)
    requires s1 <= s2
    ensures Level(AssignBadge(s1)) <= Level(AssignBadge(s2))
  {
    BandMonotone(s1, s2, 85.0, 70.0);
  }

  /** The stricter thresholds never give a better badge than 80/60. */
  lemma AssignBadgeStricter(score: real)
    ensures Level(AssignBadge(score)) <= Level(Badge(score))
  {
  }

  /** The "Analyze" button: `Match_Score` is written into the frame in
      place, and the recommendations are a sorted copy of it. */
  method Analyze(df: array<Row>, similarity: seq<real>) returns (recommendations: array<Row>)
    requires |similarity| == df.Length
    modifies df
    ensures df[..] == WithColumn(old(df[..]), Match, Percentages(similarity))
    ensures fresh(recommendations)
    ensures multiset(recommendations[..]) == multiset(df[..])
    ensures SortedByScore(recommendations[..])
  {
    AssignColumn(df, Match, Percentages(similarity));
    recommendations := Ranking.SortedCopy(df);
  }

  /** One card of the loop: the career, its badge, its score and the gap
      ("Perfect Skill Alignment" when it is empty). */
  function MainCard(row: Row, userTokens: set<string>): (c: Card)
    ensures c.career == row.career.name && c.score == Score(row) && c.band == AssignBadge(Score(row))
    ensures c.missing == {} <==> NormSet(row.career.requiredSkills) <= userTokens
  {
    Card(row.career.name, AssignBadge(Score(row)), Score(row), TokenGap(userTokens, row.career.requiredSkills))
  }

  /** What the top-3 loop shows: three cards, or the cards shown before
      `recommendations.iloc[i]` raised an `IndexError`. */
  datatype TopThree = Shown(cards: seq<Card>) | IndexError(shownBefore: seq<Card>)

  /** `for i in range(3)` over `recommendations.iloc[i]`: it shows three
      cards when there are at least three rows, and otherwise fails after
      showing every row; once sorted, the cards are in score order. */
  method ShowTopThree(recommendations: array<Row>, userTokens: set<string>) returns (r: TopThree)
    ensures r.Shown? <==> recommendations.Length >= 3
    ensures r.Shown? ==>
      && |r.cards| == 3
      && forall i :: 0 <= i < 3 ==> r.cards[i] == MainCard(recommendations[i], userTokens)
    ensures r.IndexError? ==>
      && |r.shownBefore| == recommendations.Length
      && forall i :: 0 <= i < |r.shownBefore| ==> r.shownBefore[i] == MainCard(recommendations[i], userTokens)
    ensures r.Shown? && SortedByScore(recommendations[..]) ==> forall i, j :: 0 <= i < j < 3 ==>
      r.cards[i].score >= r.cards[j].score && Level(r.cards[i].band) >= Level(r.cards[j].band)
  {
    var card := row => MainCard(row, userTokens);
    var shown: seq<Card> := [];
    for i := 0 to 3
      invariant i <= recommendations.Length
      invariant |shown| == i
      invariant Mapped(shown, recommendations[..], card)
    {
      if i >= recommendations.Length {
        return IndexError(shown);
      }
      MappedOneMore(shown, recommendations[..], card);
      shown := shown + [card(recommendations[i])];
    }
    if SortedByScore(recommendations[..]) {
      Cards.CardsInOrder(recommendations[..], shown, 85.0, 70.0);
    }
    return Shown(shown);
  }

  /** The loop as evidently intended, over `range(min(3, len(recommendations)))`:
      it shows a card for each of the first three rows, or for every row
      when there are fewer, and never fails. */
  method ShowTopCards(recommendations: array<Row>, userTokens: set<string>) returns (cards: seq<Card>)
    ensures |cards| == if recommendations.Length < 3 then recommendations.Length else 3
    ensures forall i :: 0 <= i < |cards| ==> cards[i] == MainCard(recommendations[i], userTokens)
    ensures SortedByScore(recommendations[..]) ==> forall i, j :: 0 <= i < j < |cards| ==>
      cards[i].score >= cards[j].score && Level(cards[i].band) >= Level(cards[j].band)
  {
    var card := row => MainCard(row, userTokens);
    var n := if recommendations.Length < 3 then recommendations.Length else 3;
    cards := [];
    for i := 0 to n
      invariant |cards| == i
      invariant Mapped(cards, recommendations[..], card)
    {
      MappedOneMore(cards, recommendations[..], card);
      cards := cards + [card(recommendations[i])];
    }
    if SortedByScore(recommendations[..]) {
      Cards.CardsInOrder(recommendations[..], cards, 85.0, 70.0);
    }
  }
}

=== FILE: order.dfy ===
/** Python's ordering of `str` values (lexicographic by code point) and the
    sorted, duplicate-free list of skills offered by the selection widget. */
module StringOrder {
  import opened Text

  /** `a < b` on Python strings: a proper prefix is smaller, otherwise the
      first differing code point decides. */
  predicate Less(a: string, b: string) {
    if a == [] then b != []
    else if b == [] then false
    else a[0] < b[0] || (a[0] == b[0] && Less(a[1..], b[1..]))
  }

  /** `a` is a proper prefix of `b`. */
  predicate ProperPrefix(a: string, b: string) {
    |a| < |b| && a == b[..|a|]
  }

  /** At the first position where `a` and `b` differ, `a` has the smaller
      code point. */
  predicate SmallerAtFirstDifference(a: string, b: string) {
    exists k :: 0 <= k < |a| && k < |b| && a[..k] == b[..k] && a[k] < b[k]
  }

  /** `Less` is the lexicographic order: a proper prefix comes first, and
      otherwise the first differing code point decides. */
  lemma {:induction false} LessLexicographic(a: string, b: string)
    ensures Less(a, b) <==> ProperPrefix(a, b) || SmallerAtFirstDifference(a, b)
  {
    if a != [] && b != [] {
      if a[0] < b[0] {
        assert a[..0] == b[..0];
      } else if a[0] == b[0] {
        LessLexicographic(a[1..], b[1..]);
        TailPrefix(a, b);
        TailDifference(a, b);
      }
    }
  }

  lemma TailPrefix(a: string, b: string)
    requires a != [] && b != [] && a[0] == b[0]
    ensures ProperPrefix(a, b) <==> ProperPrefix(a[1..], b[1..])
  {
    if ProperPrefix(a[1..], b[1..]) {
      assert a == [a[0]] + a[1..] && b[..|a|] == [b[0]] + b[1..][..|a| - 1];
    }
  }

  lemma TailDifference(a: string, b: string)
    requires a != [] && b != [] && a[0] == b[0]
    ensures SmallerAtFirstDifference(a, b) <==> SmallerAtFirstDifference(a[1..], b[1..])
  {
    if SmallerAtFirstDifference(a, b) {
      var k :| 0 <= k < |a| && k < |b| && a[..k] == b[..k] && a[k] < b[k];
      DifferenceInTail(a, b, k);
    }
    if SmallerAtFirstDifference(a[1..], b[1..]) {
      var k :| 0 <= k < |a| - 1 && k < |b| - 1 && a[1..][..k] == b[1..][..k] && a[1..][k] < b[1..][k];
      DifferenceBehindHead(a, b, k);
    }
  }

  lemma DifferenceInTail(a: string, b: string, k: nat)
    requires a != [] && b != [] && a[0] == b[0]
    requires k < |a| && k < |b| && a[..k] == b[..k] && a[k] < b[k]
    ensures SmallerAtFirstDifference(a[1..], b[1..])
  {
    assert k != 0;
    var ta, tb := a[1..], b[1..];
    assert ta[..k - 1] == a[..k][1..];
    assert tb[..k - 1] == b[..k][1..];
    assert 0 <= k - 1 < |ta| && k - 1 < |tb| && ta[..k - 1] == tb[..k - 1] && ta[k - 1] < tb[k - 1];
  }

  lemma DifferenceBehindHead(a: string, b: string, k: nat)
    requires a != [] && b != [] && a[0] == b[0]
    requires k < |a| - 1 && k < |b| - 1 && a[1..][..k] == b[1..][..k] && a[1..][k] < b[1..][k]
    ensures SmallerAtFirstDifference(a, b)
  {
    assert a[..k + 1] == [a[0]] + a[1..][..k];
    assert b[..k + 1] == [b[0]] + b[1..][..k];
    assert 0 <= k + 1 < |a| && k + 1 < |b| && a[..k + 1] == b[..k + 1] && a[k + 1] < b[k + 1];
  }

  lemma {:induction false} LessIrreflexive(a: string)
    ensures !Less(a, a)
  {
    if a != [] {
      LessIrreflexive(a[1..]);
    }
  }

  lemma {:induction false} LessTransitive(a: string, b: string, c: string)
    requires Less(a, b) && Less(b, c)
    ensures Less(a, c)
  {
    if a != [] && a[0] == b[0] && b[0] == c[0] {
      LessTransitive(a[1..], b[1..], c[1..]);
    }
  }

  /** Any two different strings are ordered one way or the other. */
  lemma {:induction false} LessTotal(a: string, b: string)
    requires a != b
    ensures Less(a, b) || Less(b, a)
  {
    if a != [] && b != [] && a[0] == b[0] {
      assert a == [a[0]] + a[1..] && b == [b[0]] + b[1..];
      LessTotal(a[1..], b[1..]);
    }
  }

  /** Sorted ascending with no repeated element, as `sorted()` of a set is. */
  predicate StrictlyIncreasing(s: seq<string>) {
    forall i, j :: 0 <= i < j < |s| ==> Less(s[i], s[j])
  }

  /** Inserts `x` at its place in a strictly increasing list, unless it is
      already there. */
  function Insert(x: string, s: seq<string>): (r: seq<string>)
    requires StrictlyIncreasing(s)
    ensures StrictlyIncreasing(r)
    ensures forall z :: z in r <==> z in s || z == x
  {
    if s == [] then [x]
    else if x == s[0] then s
    else if Less(x, s[0]) then
      assert forall j :: 0 < j < |s| ==> Less(x, s[j]) by {
        forall j | 0 < j < |s| ensures Less(x, s[j]) { LessTransitive(x, s[0], s[j]); }
      }
      [x] + s
    else
      LessTotal(x, s[0]);
      var tail := Insert(x, s[1..]);
      assert forall z :: z in tail ==> Less(s[0], z);
      [s[0]] + tail
  }

  /** Inserts every element of `xs`, in order. */
  function InsertAll(xs: seq<string>, s: seq<string>): (r: seq<string>)
    requires StrictlyIncreasing(s)
    ensures StrictlyIncreasing(r)
    ensures forall z :: z in r <==> z in s || z in xs
  {
    if xs == [] then s
    else
      var r := InsertAll(xs[1..], Insert(xs[0], s));
      assert forall z :: z in xs <==> z == xs[0] || z in xs[1..];
      r
  }

  /** Each piece stripped. */
  function StripEach(pieces: seq<string>): (r: seq<string>)
    ensures |r| == |pieces|
    ensures forall k :: 0 <= k < |r| ==> r[k] == Strip(pieces[k])
    ensures forall k :: 0 <= k < |r| ==> IsStripped(r[k])
  {
    if pieces == [] then [] else [Strip(pieces[0])] + StripEach(pieces[1..])
  }

  /** The stripped comma pieces of one `Required_Skills` string. */
  function SkillLabels(required: string): seq<string> {
    StripEach(Split(required, ','))
  }

  /** A skill label the catalogue offers: the stripped form of some comma
      piece of some `Required_Skills` string. */
  ghost predicate Offered(z: string, requirements: seq<string>) {
    Among(z, requirements, SkillLabels)
  }

  /** `sorted({skill.strip() for req in requirements for skill in req.split(',')})`. */
  function Vocabulary(requirements: seq<string>): (v: seq<string>)
    ensures StrictlyIncreasing(v)
    ensures forall z :: z in v <==> Offered(z, requirements)
  {
    if requirements == [] then []
    else
      var n := |requirements| - 1;
      OfferedLast(requirements);
      InsertAll(SkillLabels(requirements[n]), Vocabulary(requirements[..n]))
  }

  lemma OfferedLast(requirements: seq<string>)
    requires requirements != []
    ensures forall z :: Offered(z, requirements) <==>
      Offered(z, requirements[..|requirements| - 1]) || z in SkillLabels(requirements[|requirements| - 1])
  {
    forall z {
      OfferedLastOne(requirements, z);
    }
  }

  lemma OfferedLastOne(requirements: seq<string>, z: string)
    requires requirements != []
    ensures Offered(z, requirements) <==>
      Offered(z, requirements[..|requirements| - 1]) || z in SkillLabels(requirements[|requirements| - 1])
  {
    SomeLast(requirements, z, SkillLabels);
  }

  /** Some requirement string yields `z` under `labelsOf`. */
  ghost predicate Among(z: string, requirements: seq<string>, labelsOf: string -> seq<string>) {
    exists i :: 0 <= i < |requirements| && z in labelsOf(requirements[i])
  }

  /** Splitting off the last requirement string, for any way of reading
      labels out of it. */
  lemma SomeLast(requirements: seq<string>, z: string, labelsOf: string -> seq<string>)
    requires requirements != []
    ensures var n := |requirements| - 1;
      Among(z, requirements, labelsOf) <==> Among(z, requirements[..n], labelsOf) || z in labelsOf(requirements[n])
  {
    var n := |requirements| - 1;
    var init := requirements[..n];
    if Among(z, requirements, labelsOf) {
      var i :| 0 <= i < |requirements| && z in labelsOf(requirements[i]);
      if i < n {
        assert init[i] == requirements[i];
      }
    }
    if Among(z, init, labelsOf) {
      var i :| 0 <= i < |init| && z in labelsOf(init[i]);
      assert init[i] == requirements[i];
    }
  }

  /** Every label in the vocabulary is stripped. */
  lemma VocabularyStripped(requirements: seq<string>, z: string)
    requires z in Vocabulary(requirements)
    ensures IsStripped(z)
  {
    var i :| 0 <= i < |requirements| && z in SkillLabels(requirements[i]);
  }
}

=== FILE: original.dfy ===
/** original.py: a four-career catalogue, raw similarity scores in [0, 1],
    a table of the three best careers and one line per career listing the
    skills it still needs. */
module OriginalScript {
  import opened Skills
  import opened Frame
  import Ranking

  /** The "Recommend Careers" button: `Match_Score` is the raw similarity,
      written in place; the recommendations are the first three rows of a
      sorted copy, so they come from the frame, are in score order and
      score at least as much as every career left out. */
  method Recommend(df: array<Row>, similarity: seq<real>) returns (recommendations: seq<Row>)
    requires |similarity| == df.Length
    modifies df
    ensures df[..] == WithColumn(old(df[..]), Match, similarity)
    ensures |recommendations| == if df.Length < 3 then df.Length else 3
    ensures multiset(recommendations) <= multiset(df[..])
    ensures SortedByScore(recommendations)
    ensures forall x, y :: x in multiset(df[..]) - multiset(recommendations) && y in recommendations ==>
      Score(x) <= Score(y)
    ensures InRange(similarity, 0.0, 1.0) ==> ScoresIn(recommendations, 0.0, 1.0)
  {
    AssignColumn(df, Match, similarity);
    var sorted := Ranking.SortedCopy(df);
    Ranking.HeadOfSorted(sorted[..], 3);
    recommendations := Head(sorted[..], 3);
    if InRange(similarity, 0.0, 1.0) {
      PermutationKeepsScores(df[..], sorted[..], 0.0, 1.0);
    }
  }

  /** One written line: the career and its missing skills ("None" when
      there are none). */
  datatype ReportLine = ReportLine(career: string, missing: set<string>)

  /** The line for one recommendation: its missing skills, which are
      empty ("None") exactly when every requirement is among the user's
      tokens. */
  function LineFor(row: Row, userTokens: set<string>): (line: ReportLine)
    ensures line.career == row.career.name
    ensures line.missing <= NormSet(row.career.requiredSkills) && line.missing !! userTokens
    ensures line.missing == {} <==> NormSet(row.career.requiredSkills) <= userTokens
  {
    ReportLine(row.career.name, TokenGap(userTokens, row.career.requiredSkills))
  }

  /** The loop over the recommendations: for each, the required tokens
      minus `userSkills`, the normalised text the user typed. */
  method MissingReport(recommendations: seq<Row>, userSkills: set<string>) returns (lines: seq<ReportLine>)
    ensures |lines| == |recommendations|
    ensures forall i :: 0 <= i < |lines| ==> lines[i] == LineFor(recommendations[i], userSkills)
  {
    var lineFor := row => LineFor(row, userSkills);
    lines := [];
    for i := 0 to |recommendations|
      invariant |lines| == i
      invariant Mapped(lines, recommendations, lineFor)
    {
      var requiredSkills := NormSet(recommendations[i].career.requiredSkills);
      var missingSkills := requiredSkills - userSkills;
      var line := ReportLine(recommendations[i].career.name, missingSkills);
      assert line == lineFor(recommendations[i]);
      MappedOneMore(lines, recommendations, lineFor);
      lines := lines + [line];
    }
  }
}

=== FILE: prper_code_inside_data.dfy ===
/** prper_code_inside_data.py: a built-in catalogue of seven careers, a
    selection widget over its skill labels, and a ranking by text
    similarity alone. The gap compares the selected labels as they are
    offered, without lower-casing them. */
module PrperCode {
  import opened Text
  import opened Skills
  import opened Frame
  import Ranking

  /** The labels the selection widget starts with. */
  const DefaultSelection: set<string> := {"Python", "SQL", "HTML"}

  /** The "Analyze" button: an empty selection only warns and no
      `Match_Score` column is written; otherwise the column is the
      similarity as a percentage and the frame is sorted by it. */
  method Analyze(df: array<Row>, userSkills: set<string>, similarity: seq<real>) returns (outcome: Outcome)
    requires |similarity| == df.Length
    modifies df
    ensures outcome == EmptySelection <==> userSkills == {}
    ensures outcome == EmptySelection ==> df[..] == old(df[..])
    ensures outcome == Ranked ==>
      && multiset(df[..]) == multiset(WithColumn(old(df[..]), Match, Percentages(similarity)))
      && SortedByScore(df[..])
      && (InRange(similarity, 0.0, 1.0) ==> ScoresIn(df[..], 0.0, 100.0))
  {
    if userSkills == {} {
      return EmptySelection;
    }
    Ranking.RankBy(df, Percentages(similarity), 0.0, 100.0);
    return Ranked;
  }

  /** Every default label is capitalised, so with the default selection
      every requirement of every career is listed as missing. */
  lemma DefaultSelectionMissesAll(requiredSkills: string)
    ensures TokenGap(DefaultSelection, requiredSkills) == NormSet(requiredSkills)
  {
    assert IsUpper("Python"[0]) && IsUpper("SQL"[0]) && IsUpper("HTML"[0]);
    CapitalisedLabelsMissAll(DefaultSelection, requiredSkills);
  }

  /** As written, "You are ready" cannot appear: a career whose only
      requirement is a capitalised label such as "Python" offers that
      label, yet selecting it leaves the whole requirement missing. */
  lemma ReadyUnreachable(skill: string)
    requires IsStripped(skill) && ',' !in skill && HasUpper(skill)
    ensures skill in StringOrder.SkillLabels(skill)
    ensures TokenGap({skill}, skill) == NormSet(skill) != {}
  {
    SplitNoSep(skill, ',');
    StripPadded([], skill, []);
    assert [] + skill + [] == skill;
    assert StringOrder.SkillLabels(skill)[0] == skill;
    CapitalisedLabelsMissAll({skill}, skill);
  }

  /** With the labels lower-cased before the difference, as
      career_guide_ai_modern.py and real.py do, selecting every label a
      career offers leaves nothing missing. */
  lemma OwnLabelsReady(requiredSkills: string)
    ensures LabelGap((set z | z in StringOrder.SkillLabels(requiredSkills)), requiredSkills) == {}
  {
    var pieces := Split(requiredSkills, ',');
    var labels := StringOrder.SkillLabels(requiredSkills);
    var chosen := set z | z in labels;
    forall t | t in NormSet(requiredSkills) ensures t in LowerAll(chosen) {
      var p :| p in pieces && t == Norm(p);
      var k :| 0 <= k < |pieces| && pieces[k] == p;
      assert labels[k] == Strip(p);
      assert Strip(p) in chosen;
    }
  }
}

=== FILE: ranking.dfy ===
/** `sort_values("Match_Score", ascending=False)` on the frame: rows
    reordered non-increasingly by score. The order of rows with equal
    scores is left open, as pandas' default sort is not stable. */
module Ranking {
  import opened Frame

  /** The index of a row with the highest score among `a[lo..]`. */
  method MaxFrom(a: array<Row>, lo: nat) returns (m: nat)
    requires lo < a.Length
    ensures lo <= m < a.Length
    ensures forall k :: lo <= k < a.Length ==> Score(a[k]) <= Score(a[m])
  {
    m := lo;
    var k := lo + 1;
    while k < a.Length
      invariant lo <= m < k <= a.Length
      invariant forall j :: lo <= j < k ==> Score(a[j]) <= Score(a[m])
    {
      if Score(a[k]) > Score(a[m]) {
        m := k;
      }
      k := k + 1;
    }
  }

  /** The first `i` rows are the `i` best, in order: sorted among
      themselves and none below a row after them. */
  predicate Selected(s: seq<Row>, i: nat)
    requires i <= |s|
  {
    && (forall p, q :: 0 <= p < q < i ==> Score(s[p]) >= Score(s[q]))
    && (forall p, q :: 0 <= p < i <= q < |s| ==> Score(s[p]) >= Score(s[q]))
  }

  /** Moving a best remaining row to position `i` selects one more row. */
  lemma SelectStep(s: seq<Row>, i: nat, m: nat)
    requires i <= m < |s| && Selected(s, i)
    requires forall k :: i <= k < |s| ==> Score(s[k]) <= Score(s[m])
    ensures Selected(s[i := s[m]][m := s[i]], i + 1)
    ensures multiset(s[i := s[m]][m := s[i]]) == multiset(s)
  {
    var t := s[i := s[m]][m := s[i]];
    forall p, q | 0 <= p < i + 1 <= q < |t| ensures Score(t[p]) >= Score(t[q]) {
      if p < i {
        assert t[p] == s[p];
        assert t[q] == s[q] || t[q] == s[i];
      } else {
        assert t[p] == s[m];
      }
    }
  }

  /** Sorts the rows in place, highest `Match_Score` first. */
  method SortByScore(a: array<Row>)
    requires HasMatchScore(a[..])
    modifies a
    ensures SortedByScore(a[..])
    ensures multiset(a[..]) == multiset(old(a[..]))
  {
    var i := 0;
    while i < a.Length
      invariant 0 <= i <= a.Length
      invariant Selected(a[..], i)
      invariant multiset(a[..]) == multiset(old(a[..]))
    {
      var m := MaxFrom(a, i);
      ghost var before := a[..];
      SelectStep(before, i, m);
      a[i], a[m] := a[m], a[i];
      assert a[..] == before[i := before[m]][m := before[i]];
      i := i + 1;
    }
    assert Selected(a[..], a.Length);
  }

  /** `df["Match_Score"] = values` followed by rebinding `df` to the frame
      sorted by that column: the rows of the scored frame, reordered. */
  method RankBy(df: array<Row>, values: seq<real>, lo: real, hi: real)
    requires |values| == df.Length
    modifies df
    ensures multiset(df[..]) == multiset(WithColumn(old(df[..]), Match, values))
    ensures SortedByScore(df[..])
    ensures InRange(values, lo, hi) ==> ScoresIn(df[..], lo, hi)
  {
    AssignColumn(df, Match, values);
    ghost var scored := df[..];
    SortByScore(df);
    if InRange(values, lo, hi) {
      PermutationKeepsScores(scored, df[..], lo, hi);
    }
  }

  /** `df.sort_values(...)` kept as a new frame: the original is untouched. */
  method SortedCopy(a: array<Row>) returns (b: array<Row>)
    requires HasMatchScore(a[..])
    ensures fresh(b) && b.Length == a.Length
    ensures SortedByScore(b[..])
    ensures multiset(b[..]) == multiset(a[..])
  {
    b := new Row[a.Length];
    forall k | 0 <= k < a.Length {
      b[k] := a[k];
    }
    assert b[..] == a[..];
    SortByScore(b);
  }

  /** The first `n` rows of a sorted frame score at least as much as every
      row left out, and the two parts make up the frame. */
  lemma HeadOfSorted(rows: seq<Row>, n: nat)
    requires SortedByScore(rows)
    ensures var top := Head(rows, n);
      && multiset(top) <= multiset(rows)
      && SortedByScore(top)
      && forall x, y :: x in multiset(rows) - multiset(top) && y in top ==> Score(x) <= Score(y)
  {
    var top := Head(rows, n);
    var rest := rows[|top|..];
    assert rows == top + rest;
    assert multiset(rows) - multiset(top) == multiset(rest);
    SortedSplit(rows, |top|);
  }

  /** In a sorted frame, no row after position `m` outscores a row before it. */
  lemma SortedSplit(rows: seq<Row>, m: nat)
    requires SortedByScore(rows) && m <= |rows|
    ensures forall x, y :: x in rows[m..] && y in rows[..m] ==> Score(x) <= Score(y)
  {
    forall x, y | x in rows[m..] && y in rows[..m] ensures Score(x) <= Score(y) {
      var i :| 0 <= i < |rows| - m && rows[m..][i] == x;
      var j :| 0 <= j < m && rows[..m][j] == y;
      assert rows[m + i] == x && rows[j] == y;
    }
  }
}

=== FILE: real.dfy ===
/** real.py: the same catalogue and selection widget as the modern guide,
    but each career gets three columns: the lexical `Rule_Score`, the
    text-similarity `ML_Score` (a percentage) and their weighted blend
    `Match_Score`, by which the frame is ranked. */
module RealHybrid {
  import opened Skills
  import opened Frame
  import Ranking

  /** `0.7 * df["Rule_Score"] + 0.3 * df["ML_Score"]`, read from the frame. */
  function HybridColumn(rows: seq<Row>): (scores: seq<real>)
    requires forall k :: 0 <= k < |rows| ==> rows[k].ruleScore.Some? && rows[k].mlScore.Some?
    ensures |scores| == |rows|
    ensures forall k :: 0 <= k < |rows| ==>
      scores[k] == Hybrid(rows[k].ruleScore.value, rows[k].mlScore.value)
  {
    seq(|rows|, k requires 0 <= k < |rows| => Hybrid(rows[k].ruleScore.value, rows[k].mlScore.value))
  }

  /** The frame once lines 130-143 have written `Rule_Score`, then
      `ML_Score`, then their blend read back from the frame: each row keeps
      its career and gets the blend of its two scores, which stays in
      [0, 100] when both columns do. */
  function WithScores(rows: seq<Row>, rule: seq<real>, ml: seq<real>): (r: seq<Row>)
    requires |rule| == |rows| && |ml| == |rows|
    ensures |r| == |rows|
    ensures forall k :: 0 <= k < |rows| ==>
      r[k] == Row(rows[k].career, Some(rule[k]), Some(ml[k]), Some(Hybrid(rule[k], ml[k])))
    ensures InRange(rule, 0.0, 100.0) && InRange(ml, 0.0, 100.0) ==> ScoresIn(r, 0.0, 100.0)
  {
    var withRule := WithColumn(rows, Rule, rule);
    var withMl := WithColumn(withRule, Ml, ml);
    var r := WithColumn(withMl, Match, HybridColumn(withMl));
    forall k | 0 <= k < |rows|
      ensures r[k] == Row(rows[k].career, Some(rule[k]), Some(ml[k]), Some(Hybrid(rule[k], ml[k])))
    {
      assert withMl[k] == rows[k].(ruleScore := Some(rule[k]), mlScore := Some(ml[k]));
    }
    r
  }

  /** The "Analyze" button: an empty selection only warns and no score
      column is written; otherwise the three columns are written one after
      another and the frame is sorted by `Match_Score`. */
  method Analyze(df: array<Row>, userSkills: set<string>, similarity: seq<real>) returns (outcome: Outcome)
    requires |similarity| == df.Length
    modifies df
    ensures outcome == EmptySelection <==> userSkills == {}
    ensures outcome == EmptySelection ==> df[..] == old(df[..])
    ensures outcome == Ranked ==>
      && multiset(df[..]) == multiset(WithScores(old(df[..]),
           LabelScoreColumn(old(df[..]), userSkills), Percentages(similarity)))
      && SortedByScore(df[..])
      && (InRange(similarity, 0.0, 1.0) ==> ScoresIn(df[..], 0.0, 100.0))
  {
    if userSkills == {} {
      return EmptySelection;
    }
    ghost var rows := df[..];
    var rule := LabelScoreColumn(df[..], userSkills);
    var ml := Percentages(similarity);
    AssignColumn(df, Rule, rule);
    AssignColumn(df, Ml, ml);
    var blend := HybridColumn(df[..]);
    assert WithColumn(df[..], Match, blend) == WithScores(rows, rule, ml);
    assert InRange(similarity, 0.0, 1.0) ==> InRange(blend, 0.0, 100.0);
    Ranking.RankBy(df, blend, 0.0, 100.0);
    return Ranked;
  }

  /** Without any similarity the blend is at most 70, so a full lexical
      match alone is a "Good Fit" and never an "Excellent Fit". */
  lemma LexicalAloneAtMostGood(rule: real)
    requires 0.0 <= rule <= 100.0
    ensures Hybrid(rule, 0.0) <= 70.0
    ensures Badge(Hybrid(rule, 0.0)) != ExcellentFit
    ensures Badge(Hybrid(100.0, 0.0)) == GoodFit
  {
  }

  /** Without any lexical overlap the blend is at most 30, which is always
      "Needs Improvement". */
  lemma SimilarityAloneNeedsImprovement(ml: real)
    requires 0.0 <= ml <= 100.0
    ensures Badge(Hybrid(0.0, ml)) == NeedsImprovement
  {
  }

  /** An "Excellent Fit" needs both parts: a rule score of at least 500/7
      and a similarity of at least 100/3 percent. */
  lemma ExcellentNeedsBoth(rule: real, ml: real)
    requires 0.0 <= rule <= 100.0 && 0.0 <= ml <= 100.0
    requires Badge(Hybrid(rule, ml)) == ExcellentFit
    ensures 7.0 * rule >= 500.0 && 3.0 * ml >= 100.0
  {
  }
}

=== FILE: skills.dfy ===
/** The skill-matching engine the scripts share: normalising a skills
    string into a set of tokens, the lexical coverage score, the skill gap,
    the fit band and the hybrid score. Scores are exact reals. */
module Skills {
  import opened Text

  // -------------------------------------------------------- normalisation

  /** One requirement token: `piece.strip().lower()`. */
  function Norm(piece: string): (t: string)
    ensures IsStripped(t) && !HasUpper(t)
  {
    Lower(Strip(piece))
  }

  /** `set(s.strip().lower() for s in text.split(","))`: never empty, since
      a split always has at least one piece, and an empty piece is kept as
      the token "". */
  function NormSet(text: string): (tokens: set<string>)
    ensures tokens != {}
    ensures forall t :: t in tokens ==> IsStripped(t) && !HasUpper(t)
    ensures forall k :: 0 <= k < |Split(text, ',')| ==> Norm(Split(text, ',')[k]) in tokens
    ensures forall t :: t in tokens ==>
      exists k :: 0 <= k < |Split(text, ',')| && t == Norm(Split(text, ',')[k])
  {
    var pieces := Split(text, ',');
    var tokens := set p | p in pieces :: Norm(p);
    assert Norm(pieces[0]) in tokens;
    assert forall t :: t in tokens ==> exists k :: 0 <= k < |pieces| && t == Norm(pieces[k]) by {
      forall t | t in tokens
        ensures exists k :: 0 <= k < |pieces| && t == Norm(pieces[k])
      {
        var p :| p in pieces && t == Norm(p);
        var k :| 0 <= k < |pieces| && pieces[k] == p;
      }
    }
    tokens
  }

  /** Text made only of whitespace (the empty string included) normalises
      to the single token "", not to the empty set. */
  lemma NormSetBlank(text: string)
    requires AllSpace(text)
    ensures NormSet(text) == {""}
  {
    assert !IsSpace(',');
    SplitNoSep(text, ',');
    StripPadded(text, "", []);
    assert text + "" + [] == text;
  }

  /** A blank piece between two commas survives as the token "". */
  lemma BlankPieceKept(text: string, k: nat)
    requires k < |Split(text, ',')| && AllSpace(Split(text, ',')[k])
    ensures "" in NormSet(text)
  {
    var p := Split(text, ',')[k];
    StripPadded(p, "", []);
    assert p + "" + [] == p;
  }

  /** Normalisation ignores letter case. */
  lemma NormLower(piece: string)
    ensures Norm(Lower(piece)) == Norm(piece)
  {
    StripLower(piece);
    LowerIdempotent(Strip(piece));
  }

  lemma NormSetIgnoresCase(text: string)
    ensures NormSet(Lower(text)) == NormSet(text)
  {
    var pieces := Split(text, ',');
    SplitLower(text, ',');
    var lowered := LowerEach(pieces);
    forall k | 0 <= k < |pieces| ensures Norm(lowered[k]) == Norm(pieces[k]) {
      NormLower(pieces[k]);
    }
    SameNorms(lowered, pieces);
  }

  /** Piece lists whose pieces normalise alike give the same token set. */
  lemma SameNorms(xs: seq<string>, ys: seq<string>)
    requires |xs| == |ys|
    requires forall k :: 0 <= k < |xs| ==> Norm(xs[k]) == Norm(ys[k])
    ensures (set p | p in xs :: Norm(p)) == (set p | p in ys :: Norm(p))
  {
    var xTokens := set p | p in xs :: Norm(p);
    var yTokens := set p | p in ys :: Norm(p);
    forall t | t in xTokens ensures t in yTokens {
      var k :| 0 <= k < |xs| && t == Norm(xs[k]);
      assert ys[k] in ys;
    }
    forall t | t in yTokens ensures t in xTokens {
      var k :| 0 <= k < |ys| && t == Norm(ys[k]);
      assert xs[k] in xs;
    }
  }

  /** `set(s.lower() for s in labels)`. */
  function LowerAll(labels: set<string>): (r: set<string>)
    ensures forall t :: t in r ==> !HasUpper(t)
    ensures forall u :: u in labels ==> Lower(u) in r
    ensures forall t :: t in r ==> exists u :: u in labels && t == Lower(u)
  {
    set u | u in labels :: Lower(u)
  }

  /** Lower-casing the labels a second time changes nothing. */
  lemma LowerAllIdempotent(labels: set<string>)
    ensures LowerAll(LowerAll(labels)) == LowerAll(labels)
  {
    forall t | t in LowerAll(LowerAll(labels)) ensures t in LowerAll(labels) {
      var u :| u in LowerAll(labels) && t == Lower(u);
      LowerOfLowered(u);
    }
    forall t | t in LowerAll(labels) ensures t in LowerAll(LowerAll(labels)) {
      LowerOfLowered(t);
    }
  }

  // ------------------------------------------------------------------ gap

  /** The skills to learn: required tokens the user does not have. */
  function Gap(user: set<string>, req: set<string>): (g: set<string>)
    ensures g <= req && g !! user
    ensures g + (req * user) == req
    ensures g == {} <==> req <= user
    ensures |g| == |req| - |req * user|
  {
    req - user
  }

  // ------------------------------------------------------------- coverage

  lemma RatioBounds(a: nat, b: nat)
    requires 0 < b && a <= b
    ensures 0.0 <= (a as real) / (b as real) <= 1.0
    ensures (a as real) / (b as real) == 1.0 <==> a == b
    ensures (a as real) / (b as real) == 0.0 <==> a == 0
  {
    var q := (a as real) / (b as real);
    assert q * (b as real) == a as real;
  }

  /** A ratio of naturals is one exactly when they are equal. */
  lemma RatioOne(a: nat, b: nat)
    requires 0 < b
    ensures (a as real) / (b as real) == 1.0 <==> a == b
  {
    var q := (a as real) / (b as real);
    assert q * (b as real) == a as real;
    if q == 1.0 {
      assert a as real == b as real;
    }
  }

  /** `part` out of `whole`, as a percentage. */
  function Percent(part: nat, whole: nat): (p: real)
    requires 0 < whole
    ensures part <= whole ==> 0.0 <= p <= 100.0
    ensures p == 100.0 <==> part == whole
  {
    var q := (part as real) / (whole as real);
    assert part <= whole ==> 0.0 <= q <= 1.0 by {
      if part <= whole { RatioBounds(part, whole); }
    }
    assert q == 1.0 <==> part == whole by { RatioOne(part, whole); }
    100.0 * q
  }

  /** `len(user & req) / len(req) * 100 if req else 0`: the percentage of
      the required tokens the user covers. It is 100 exactly when every
      requirement is covered and 0 exactly when none is; the guard makes it
      0 for an empty requirement set. */
  function Coverage(user: set<string>, req: set<string>): (score: real)
    ensures 0.0 <= score <= 100.0
    ensures score == 100.0 <==> req != {} && req <= user
    ensures score == 0.0 <==> req == {} || req !! user
    ensures req != {} ==> score == Percent(|req| - |Gap(user, req)|, |req|)
  {
    if req != {} then
      var common := user * req;
      var g := Gap(user, req);
      assert req * user == common;
      assert |common| == |req| - |g|;
      assert |common| == |req| ==> req <= user by {
        if |common| == |req| { assert g == {}; }
      }
      assert Percent(|common|, |req|) == (|common| as real) / (|req| as real) * 100.0;
      RatioBounds(|common|, |req|);
      (|common| as real) / (|req| as real) * 100.0
    else
      0.0
  }

  // ----------------------------------------------------------------- band

  datatype Band = NeedsImprovement | GoodFit | ExcellentFit

  /** Position of a band in the order worst to best. */
  function Level(b: Band): nat {
    match b
    case NeedsImprovement => 0
    case GoodFit => 1
    case ExcellentFit => 2
  }

  /** The badge: `>= hi` first, then `>= lo`, then the rest. */
  function BandOf(score: real, hi: real, lo: real): (b: Band)
    ensures b == ExcellentFit <==> score >= hi
    ensures b == GoodFit <==> lo <= score < hi
    ensures b == NeedsImprovement <==> score < lo && score < hi
  {
    if score >= hi then ExcellentFit
    else if score >= lo then GoodFit
    else NeedsImprovement
  }

  /** A higher score never gets a worse band. */
  lemma BandMonotone(s1: real, s2: real, hi: real, lo: real)
    requires s1 <= s2
    ensures Level(BandOf(s1, hi, lo)) <= Level(BandOf(s2, hi, lo))
  {
  }

  /** The badge most scripts show: 80 and above, then 60 and above, then
      the rest. */
  function Badge(score: real): (b: Band)
    ensures b == ExcellentFit <==> score >= 80.0
    ensures b == GoodFit <==> 60.0 <= score < 80.0
    ensures b == NeedsImprovement <==> score < 60.0
  {
    BandOf(score, 80.0, 60.0)
  }

  lemma BadgeMonotone(s1: real, s2: real)
    requires s1 <= s2
    ensures Level(Badge(s1)) <= Level(Badge(s2))
  {
    BandMonotone(s1, s2, 80.0, 60.0);
  }

  /** The text the scripts show for a band. */
  function Label(b: Band): string {
    match b
    case ExcellentFit => "\U{1F3C6} Excellent Fit"
    case GoodFit => "\U{1F525} Good Fit"
    case NeedsImprovement => "\U{26A0}\U{FE0F} Needs Improvement"
  }

  lemma LabelsDistinct(b1: Band, b2: Band)
    requires b1 != b2
    ensures Label(b1) != Label(b2)
  {
    assert Label(b1)[0] != Label(b2)[0];
  }

  // --------------------------------------------------------------- hybrid

  const RuleWeight: real := 0.7
  const MlWeight: real := 0.3

  /** `0.7 * rule + 0.3 * ml`: a weighted mean, so it lies between the two
      scores and in particular stays in [0, 100] when both do. */
  function Hybrid(rule: real, ml: real): (score: real)
    ensures rule <= ml ==> rule <= score <= ml
    ensures ml <= rule ==> ml <= score <= rule
    ensures 0.0 <= rule <= 100.0 && 0.0 <= ml <= 100.0 ==> 0.0 <= score <= 100.0
    ensures ml == 0.0 ==> score == 0.7 * rule
  {
    RuleWeight * rule + MlWeight * ml
  }

  /** The hybrid score never decreases when either part grows. */
  lemma HybridMonotone(r1: real, m1: real, r2: real, m2: real)
    requires r1 <= r2 && m1 <= m2
    ensures Hybrid(r1, m1) <= Hybrid(r2, m2)
  {
  }

  // ------------------------------------------------- the scripts' scorers

  /** `match_score` / `rule_based_score`: coverage of the normalised
      requirements by the lower-cased user labels. */
  function LabelScore(userLabels: set<string>, requiredSkills: string): (score: real)
    ensures 0.0 <= score <= 100.0
    ensures score == 100.0 <==> NormSet(requiredSkills) <= LowerAll(userLabels)
    ensures score == 0.0 <==> NormSet(requiredSkills) !! LowerAll(userLabels)
  {
    Coverage(LowerAll(userLabels), NormSet(requiredSkills))
  }

  /** The `if req else 0` guard never decides the score: a split always
      yields a piece, so the score is always the ratio. */
  lemma LabelScoreIsRatio(userLabels: set<string>, requiredSkills: string)
    ensures var req := NormSet(requiredSkills);
      |req| > 0 &&
      LabelScore(userLabels, requiredSkills)
        == (|LowerAll(userLabels) * req| as real) / (|req| as real) * 100.0
  {
  }

  /** The case of the user's labels does not matter. */
  lemma LabelScoreIgnoresCase(userLabels: set<string>, requiredSkills: string)
    ensures LabelScore(LowerAll(userLabels), requiredSkills) == LabelScore(userLabels, requiredSkills)
  {
    LowerAllIdempotent(userLabels);
  }

  /** `missing(user_set, req)` where the labels are lower-cased first. */
  function LabelGap(userLabels: set<string>, requiredSkills: string): (m: set<string>)
    ensures m <= NormSet(requiredSkills) && m !! LowerAll(userLabels)
    ensures m == {} <==> NormSet(requiredSkills) <= LowerAll(userLabels)
  {
    Gap(LowerAll(userLabels), NormSet(requiredSkills))
  }

  /** The score and the gap describe the same split of the requirements. */
  lemma LabelGapAgreesWithScore(userLabels: set<string>, requiredSkills: string)
    ensures LabelScore(userLabels, requiredSkills)
      == Percent(|NormSet(requiredSkills)| - |LabelGap(userLabels, requiredSkills)|, |NormSet(requiredSkills)|)
  {
  }

  /** The case of the user's labels does not change the gap either. */
  lemma LabelGapIgnoresCase(userLabels: set<string>, requiredSkills: string)
    ensures LabelGap(LowerAll(userLabels), requiredSkills) == LabelGap(userLabels, requiredSkills)
  {
    LowerAllIdempotent(userLabels);
  }

  /** `missing(user_set, req)` / `get_missing_skills` where the user set is
      compared as given: the requirements not in it, which together with
      the covered ones make up the requirements. */
  function TokenGap(userTokens: set<string>, requiredSkills: string): (m: set<string>)
    ensures m <= NormSet(requiredSkills) && m !! userTokens
    ensures m + (NormSet(requiredSkills) * userTokens) == NormSet(requiredSkills)
    ensures m == {} <==> NormSet(requiredSkills) <= userTokens
  {
    Gap(userTokens, NormSet(requiredSkills))
  }

  /** A label with an upper-case letter can never equal a requirement
      token, so adding it to the user set leaves the gap as it was. */
  lemma CapitalisedLabelIgnored(userTokens: set<string>, extra: string, requiredSkills: string)
    requires HasUpper(extra)
    ensures TokenGap(userTokens + {extra}, requiredSkills) == TokenGap(userTokens, requiredSkills)
  {
    assert extra !in NormSet(requiredSkills);
  }

  /** If every label carries an upper-case letter, every requirement is
      missing. */
  lemma CapitalisedLabelsMissAll(userTokens: set<string>, requiredSkills: string)
    requires forall u :: u in userTokens ==> HasUpper(u)
    ensures TokenGap(userTokens, requiredSkills) == NormSet(requiredSkills)
  {
  }

  /** When the user set is itself normalised text, the gap ignores the case
      of both the user's text and the requirements. */
  lemma TokenGapIgnoresCase(input: string, requiredSkills: string)
    ensures TokenGap(NormSet(Lower(input)), Lower(requiredSkills)) == TokenGap(NormSet(input), requiredSkills)
  {
    NormSetIgnoresCase(input);
    NormSetIgnoresCase(requiredSkills);
  }
}

=== FILE: text.dfy ===
/** String primitives with the meaning of the Python `str` methods the
    scripts call on skill lists and salaries: `split(",")`, `strip()`,
    `lower()` and `replace(old, new)`.  Strings are sequences of Unicode
    scalar values, as Python's are. */
module Text {

  /** Python's `str.isspace()` for one character: the ASCII controls
      TAB..CR, the separators U+001C..U+001F, SPACE, NEL, NBSP and the
      Unicode space separators. */
  predicate IsSpace(c: char) {
    var n := c as int;
    (9 <= n <= 13) || (0x1C <= n <= 0x20) || n == 0x85 || n == 0xA0 || n == 0x1680
    || (0x2000 <= n <= 0x200A) || n == 0x2028 || n == 0x2029 || n == 0x202F
    || n == 0x205F || n == 0x3000
  }

  predicate AllSpace(s: string) {
    forall k :: 0 <= k < |s| ==> IsSpace(s[k])
  }

  /** Neither end of `s` is whitespace. */
  predicate IsStripped(s: string) {
    s == [] || (!IsSpace(s[0]) && !IsSpace(s[|s| - 1]))
  }

  // ---------------------------------------------------------------- strip

  /** The left half of `strip()`: the longest suffix of `s` that does not
      start with whitespace. */
  function StripLeft(s: string): (r: string)
    ensures |r| <= |s|
    ensures r == [] || !IsSpace(r[0])
  {
    if s != [] && IsSpace(s[0]) then StripLeft(s[1..]) else s
  }

  /** The left half of `strip()` removes a whitespace prefix and nothing else. */
  lemma {:induction false} StripLeftRemovesSpace(s: string)
    ensures var r := StripLeft(s); r == s[|s| - |r|..] && AllSpace(s[..|s| - |r|])
  {
    if s != [] && IsSpace(s[0]) {
      StripLeftRemovesSpace(s[1..]);
      var r := StripLeft(s);
      assert s[..|s| - |r|] == [s[0]] + s[1..][..|s| - 1 - |r|];
    }
  }

  /** The right half of `strip()`: the longest prefix of `s` that does not
      end with whitespace. */
  function StripRight(s: string): (r: string)
    ensures |r| <= |s|
    ensures r == [] || !IsSpace(r[|r| - 1])
  {
    if s != [] && IsSpace(s[|s| - 1]) then StripRight(s[..|s| - 1]) else s
  }

  /** The right half of `strip()` removes a whitespace suffix and nothing else. */
  lemma {:induction false} StripRightRemovesSpace(s: string)
    ensures var r := StripRight(s); r == s[..|r|] && AllSpace(s[|r|..])
  {
    if s != [] && IsSpace(s[|s| - 1]) {
      StripRightRemovesSpace(s[..|s| - 1]);
      var r := StripRight(s);
      assert s[|r|..] == s[..|s| - 1][|r|..] + [s[|s| - 1]];
    }
  }

  /** `s.strip()`. */
  function Strip(s: string): (r: string)
    ensures IsStripped(r)
    ensures |r| <= |s|
  {
    StripRightRemovesSpace(StripLeft(s));
    StripRight(StripLeft(s))
  }

  lemma {:induction false} StripLeftSkips(pre: string, rest: string)
    requires AllSpace(pre)
    requires rest == [] || !IsSpace(rest[0])
    ensures StripLeft(pre + rest) == rest
  {
    if pre != [] {
      assert (pre + rest)[1..] == pre[1..] + rest;
      StripLeftSkips(pre[1..], rest);
    }
  }

  lemma {:induction false} StripRightSkips(rest: string, post: string)
    requires AllSpace(post)
    requires rest == [] || !IsSpace(rest[|rest| - 1])
    ensures StripRight(rest + post) == rest
  {
    if post != [] {
      var s := rest + post;
      assert s[..|s| - 1] == rest + post[..|post| - 1];
      StripRightSkips(rest, post[..|post| - 1]);
    }
  }

  /** `strip()` removes exactly the surrounding whitespace: whatever
      stripped text is padded with whitespace on either side, stripping
      gives that text back. */
  lemma StripPadded(pre: string, t: string, post: string)
    requires AllSpace(pre) && AllSpace(post) && IsStripped(t)
    ensures Strip(pre + t + post) == t
  {
    assert pre + t + post == pre + (t + post);
    if t == [] {
      assert t + post == post;
      StripLeftSkips(pre + post, []);
      assert pre + post + [] == pre + t + post;
    } else {
      StripLeftSkips(pre, t + post);
      StripRightSkips(t, post);
    }
  }

  /** `strip()` is idempotent. */
  lemma StripIdempotent(s: string)
    ensures Strip(Strip(s)) == Strip(s)
  {
    var t := Strip(s);
    StripPadded([], t, []);
    assert [] + t + [] == t;
  }

  // ---------------------------------------------------------------- lower

  predicate IsUpper(c: char) {
    'A' <= c <= 'Z'
  }

  predicate HasUpper(s: string) {
    exists k :: 0 <= k < |s| && IsUpper(s[k])
  }

  /** `c.lower()` on ASCII letters; every other character is its own lower case here. */
  function LowerChar(c: char): char {
    if IsUpper(c) then (c as int + 32) as char else c
  }

  /** `s.lower()`: every ASCII capital becomes its small letter, nothing else changes. */
  function Lower(s: string): (r: string)
    ensures |r| == |s|
    ensures !HasUpper(r)
    ensures forall k :: 0 <= k < |s| && IsUpper(s[k]) ==> r[k] as int == s[k] as int + 32
    ensures forall k :: 0 <= k < |s| && !IsUpper(s[k]) ==> r[k] == s[k]
  {
    seq(|s|, k requires 0 <= k < |s| => LowerChar(s[k]))
  }

  lemma LowerIdempotent(s: string)
    ensures Lower(Lower(s)) == Lower(s)
  {
  }

  /** A string with no capital letter is its own lower case. */
  lemma LowerOfLowered(s: string)
    requires !HasUpper(s)
    ensures Lower(s) == s
  {
  }

  /** Lower-casing commutes with stripping, because it never turns a
      whitespace character into a non-whitespace one or back. */
  lemma {:induction false} StripLeftLower(s: string)
    ensures StripLeft(Lower(s)) == Lower(StripLeft(s))
  {
    if s != [] && IsSpace(s[0]) {
      assert Lower(s)[1..] == Lower(s[1..]);
      StripLeftLower(s[1..]);
    }
  }

  lemma {:induction false} StripRightLower(s: string)
    ensures StripRight(Lower(s)) == Lower(StripRight(s))
  {
    if s != [] && IsSpace(s[|s| - 1]) {
      assert Lower(s)[..|s| - 1] == Lower(s[..|s| - 1]);
      StripRightLower(s[..|s| - 1]);
    }
  }

  lemma StripLower(s: string)
    ensures Strip(Lower(s)) == Lower(Strip(s))
  {
    StripLeftLower(s);
    StripRightLower(StripLeft(s));
  }

  // ---------------------------------------------------------------- split

  /** `s.split(sep)` for a one-character separator: the pieces between
      separators, empty pieces kept, so there is always one piece more
      than there are separators. */
  function Split(s: string, sep: char): (r: seq<string>)
    ensures |r| == multiset(s)[sep] + 1
    ensures forall k :: 0 <= k < |r| ==> sep !in r[k]
  {
    if s == [] then [""]
    else
      assert s == [s[0]] + s[1..];
      var rest := Split(s[1..], sep);
      if s[0] == sep then [""] + rest
      else [[s[0]] + rest[0]] + rest[1..]
  }

  /** `sep.join(pieces)`, the inverse of `Split`. */
  function Join(pieces: seq<string>, sep: char): string
    requires |pieces| >= 1
  {
    if |pieces| == 1 then pieces[0] else pieces[0] + [sep] + Join(pieces[1..], sep)
  }

  /** Joining the pieces of a split with the same separator restores the string. */
  lemma {:induction false} JoinSplit(s: string, sep: char)
    ensures Join(Split(s, sep), sep) == s
  {
    if s != [] {
      var rest := Split(s[1..], sep);
      JoinSplit(s[1..], sep);
      SplitStep(s, sep);
      assert s == [s[0]] + s[1..];
      if s[0] == sep {
        calc {
          Join(Split(s, sep), sep);
          Join([""] + rest, sep);
          { JoinAfterEmpty(rest, sep); }
          [sep] + Join(rest, sep);
        }
      } else {
        calc {
          Join(Split(s, sep), sep);
          Join([[s[0]] + rest[0]] + rest[1..], sep);
          { JoinAfterChar(s[0], rest, sep); }
          [s[0]] + Join(rest, sep);
        }
      }
    }
  }

  /** One step of `Split`: the first character opens a new piece or extends
      the first one. */
  lemma SplitStep(s: string, sep: char)
    requires s != []
    ensures var rest := Split(s[1..], sep);
      Split(s, sep) == if s[0] == sep then [""] + rest else [[s[0]] + rest[0]] + rest[1..]
  {
  }

  lemma JoinAfterEmpty(rest: seq<string>, sep: char)
    requires |rest| >= 1
    ensures Join([""] + rest, sep) == [sep] + Join(rest, sep)
  {
    assert ([""] + rest)[1..] == rest;
  }

  lemma JoinAfterChar(c: char, rest: seq<string>, sep: char)
    requires |rest| >= 1
    ensures Join([[c] + rest[0]] + rest[1..], sep) == [c] + Join(rest, sep)
  {
    var r := [[c] + rest[0]] + rest[1..];
    if |rest| > 1 {
      assert r[1..] == rest[1..];
    }
  }

  lemma {:induction false} SplitNoSep(a: string, sep: char)
    requires sep !in a
    ensures Split(a, sep) == [a]
  {
    if a != [] {
      SplitNoSep(a[1..], sep);
      assert [a[0]] + a[1..] == a;
    }
  }

  lemma {:induction false} SplitAfterSep(a: string, sep: char, b: string)
    requires sep !in a
    ensures Split(a + [sep] + b, sep) == [a] + Split(b, sep)
  {
    var s := a + [sep] + b;
    if a == [] {
      assert s[1..] == b;
    } else {
      assert s[1..] == a[1..] + [sep] + b;
      SplitAfterSep(a[1..], sep, b);
      assert [a[0]] + a[1..] == a;
    }
  }

  /** Splitting a join of separator-free pieces gives the pieces back. */
  lemma {:induction false} SplitJoin(pieces: seq<string>, sep: char)
    requires |pieces| >= 1
    requires forall k :: 0 <= k < |pieces| ==> sep !in pieces[k]
    ensures Split(Join(pieces, sep), sep) == pieces
  {
    if |pieces| == 1 {
      SplitNoSep(pieces[0], sep);
    } else {
      SplitJoin(pieces[1..], sep);
      SplitAfterSep(pieces[0], sep, Join(pieces[1..], sep));
      assert [pieces[0]] + pieces[1..] == pieces;
    }
  }

  /** Each piece lower-cased. */
  function LowerEach(pieces: seq<string>): (r: seq<string>)
    ensures |r| == |pieces|
    ensures forall k :: 0 <= k < |r| ==> r[k] == Lower(pieces[k])
  {
    seq(|pieces|, k requires 0 <= k < |pieces| => Lower(pieces[k]))
  }

  lemma LowerConcat(a: string, b: string)
    ensures Lower(a + b) == Lower(a) + Lower(b)
  {
  }

  lemma LowerEachCons(p: string, rest: seq<string>)
    ensures LowerEach([p] + rest) == [Lower(p)] + LowerEach(rest)
  {
  }

  /** Lower-casing before splitting on a non-letter separator is the same as
      lower-casing every piece afterwards. */
  lemma {:induction false} SplitLower(s: string, sep: char)
    requires !IsUpper(sep) && !('a' <= sep <= 'z')
    ensures Split(Lower(s), sep) == LowerEach(Split(s, sep))
  {
    if s != [] {
      var ls := Lower(s);
      var rest := Split(s[1..], sep);
      assert ls[1..] == Lower(s[1..]);
      assert ls == [ls[0]] + ls[1..];
      SplitLower(s[1..], sep);
      if s[0] == sep {
        SplitLowerSep(s, sep, rest);
      } else {
        SplitLowerOther(s, sep, rest);
      }
    }
  }

  lemma SplitLowerSep(s: string, sep: char, rest: seq<string>)
    requires !IsUpper(sep)
    requires s != [] && s[0] == sep && rest == Split(s[1..], sep)
    requires Split(Lower(s[1..]), sep) == LowerEach(rest)
    ensures Split(Lower(s), sep) == LowerEach(Split(s, sep))
  {
    var ls := Lower(s);
    assert ls[1..] == Lower(s[1..]);
    assert ls[0] == sep;
    LowerEachCons("", rest);
  }

  lemma SplitLowerOther(s: string, sep: char, rest: seq<string>)
    requires !IsUpper(sep) && !('a' <= sep <= 'z')
    requires s != [] && s[0] != sep && rest == Split(s[1..], sep)
    requires Split(Lower(s[1..]), sep) == LowerEach(rest)
    ensures Split(Lower(s), sep) == LowerEach(Split(s, sep))
  {
    var ls := Lower(s);
    var lrest := LowerEach(rest);
    assert ls[1..] == Lower(s[1..]);
    assert ls[0] != sep;
    assert Split(ls[1..], sep) == lrest;
    assert Split(ls, sep) == [[ls[0]] + lrest[0]] + lrest[1..];
    var first := [s[0]] + rest[0];
    assert Split(s, sep) == [first] + rest[1..];
    LowerConcat([s[0]], rest[0]);
    assert Lower([s[0]]) == [ls[0]];
    assert Lower(first) == [ls[0]] + lrest[0];
    LowerEachCons(first, rest[1..]);
    assert LowerEach(rest[1..]) == lrest[1..];
  }

  // -------------------------------------------------------------- replace

  /** `s.replace(old, new)` for one-character `old` and `new`. */
  function ReplaceChar(s: string, from: char, to: char): (r: string)
    ensures |r| == |s|
    ensures from != to ==> from !in r
    ensures forall k :: 0 <= k < |s| ==> r[k] == (if s[k] == from then to else s[k])
  {
    seq(|s|, k requires 0 <= k < |s| => if s[k] == from then to else s[k])
  }
}
